=== FILE: README.md ===
# gohup process lifecycle, modelled in Dafny

gohup starts a program detached from its caller, writes the new process's pid
to a pidfile, and later uses that pidfile to ask whether the process is still
running (`QueryStatus`) or to kill its process group and delete the pidfile
(`Stop`). This project models `LocalProcess` from `gohup.go` as pure functions
over an immutable `System`. A `System` holds:

- a file map (path to whole-file contents);
- the OS process table (pid to command and zombie flag);
- a log of the pids whose process group was signalled.

Every OS call is an oracle parameter: `StartOracle` stands for `os.Getwd`,
`os.TempDir`, the two `os.Create` calls, `cmd.Start` and the pidfile's
`f.WriteString`. `StopOracle` stands
for `os.FindProcess` and `os.Remove`. `Probe` stands for go-ps, go.procstat
and the output of `ps`. The platform (`runtime.GOOS`) is a parameter of
`QueryStatus`.

Modules:

- `Wrappers`: Go's `(value, error)` returns.
- `Errors`: the error values the code builds or passes on.
- `Decimal`: the pidfile codec. It covers `fmt.Sprintf("%d")` and
  `strconv.ParseInt(s, 10, 64)`, including the scan loop's overflow checks in
  `ParseUint`.
- `Strings`: `strings.Contains`.
- `FilePath`: `filepath.Join` of a directory and a file name.
- `PidFile`: `writePidFile` and `readPidFile`.
- `Gohup`: `Start`, `QueryStatus` and `Stop`.
- `Lifecycle`: properties that link several calls, or that link a call to the
  process table.

The code and its comments disagree in places. The model follows the code:

- The comment on `QueryStatus` promises `StatusError` for an unreadable
  pidfile. The code returns `StatusNotFound` with a nil error, and so does the
  model.
- `writePidFile` ignores the result of `WriteString`. Once `os.Create`
  succeeds, the call reports success even if the write failed. The file may
  then be empty, or hold only a prefix of the pid that reads as a different
  number. The model keeps this: the write's outcome is an oracle, and `Start`
  can succeed while leaving a pidfile that does not name its child.
- `readPidFile` accepts whatever `ParseInt` accepts: a leading `+` or `-`, and
  leading zeros. A file holding `0`, `1` or a negative number therefore reads
  as a valid pid, and `Stop` signals it as such.
- The `Process` interface declares `Stop(pidfile, signal)`. The model follows
  the `LocalProcess.Stop(pidfile)` method that actually exists.

## Model

| member | source | states |
|---|---|---|
| Decimal.Digits | gohup.go:195 | The digits written for a non-negative number have no leading zero, are non-empty, and denote that number. |
| Decimal.FormatInt | gohup.go:195 | `%d` always produces the canonical shape: optional `-`, no leading zeros, never `-0`. |
| Decimal.ScanSpec | gohup.go:206 | From any point, ParseUint's digit loop succeeds exactly when the whole input is digits whose value is at most 2^64-1. On success it yields that value; on a range error it yields 2^64-1. |
| Decimal.ParseUintSpec | gohup.go:206 | `ParseUint(s, 10, 64)` succeeds exactly on a non-empty digit string whose value fits in 64 bits, and returns that value. |
| Decimal.ParseIntSpec | gohup.go:206 | `ParseInt(s, 10, 64)` is strict. It succeeds iff `s` is one optional sign plus at least one digit and the signed value fits in int64, and then returns that value. Otherwise it returns 0 or a clamped bound with an error. |
| Decimal.FormatParseRoundTrip | gohup.go:187-212 | Every int64 written with `%d` parses back to exactly itself with no error. |
| Decimal.ParseFormatRoundTrip | gohup.go:187-212 | A canonical string that parses is exactly what `%d` prints for its value, so `%d` is the only canonical spelling of a pid. |
| Strings.ContainsSpec | gohup.go:179 | `strings.Contains` is true iff the marker occurs at some position of the text (both directions). |
| FilePath.JoinInjective | gohup.go:109 | Joining two names onto the same directory gives equal paths only when the names are equal. |
| PidFile.WritePidFile | gohup.go:187-198 | It succeeds iff `os.Create` does; the write's own error is ignored. On success the path holds a prefix of the decimal pid and no other path changes. If the write completed, the file reads back as exactly that pid; if it wrote nothing, the file is empty and unreadable. On failure nothing changes, and the error wraps the `os.Create` error with "unable to create pid file: ". |
| PidFile.ReadPidFile | gohup.go:200-212 | It succeeds iff the file exists and its whole content is a well-formed int64, and then returns that value. Every failure returns -1, and a missing file gives the wrapped "open" path error. Content that does not parse gives "unable to cast pid to integer: " wrapping ParseInt's NumError on the whole content. |
| PidFile.ReadsFormattedPid | gohup.go:200-212 | A file holding `%d` of an int64 pid reads back as that pid with no error. |
| PidFile.ShortWriteMisreads | gohup.go:195 | Because the write error is ignored, a write cut short can report success and leave a file that reads as a different pid (12 cut to "1" reads as 1). |
| PidFile.TrailingNewlineUnreadable | gohup.go:200-211 | Content with a trailing newline is rejected with pid -1. |
| Gohup.Start | gohup.go:72-119 | For a pid the OS hands out fresh, Start succeeds iff it gets a working directory, creates the log file if one is named, starts the child and creates the pidfile. On success the pid is > 1 and the pidfile is the given one or `<tempDir>/<pid>.pid`. That file holds the decimal pid when the write completed, and a prefix of it otherwise. A cwd or log-file failure leaves the state untouched. The log-file and pidfile creation errors come back wrapped with the code's message prefixes. A `cmd.Start` failure leaves only the truncated log file. Every failure returns (-1, ""). Existing table entries are kept, and the child is added with its command, directory and log file. Only the log file and the pidfile can change. |
| Gohup.QueryStatus | gohup.go:150-185 | The state is read only, so a repeated call on the same state returns the same answer. NotFound (with no error) happens exactly when the pidfile is unreadable. Error happens exactly on a failed lookup or, on Linux, a failed state read, and carries that cause. Stopped happens exactly for an unlisted pid or a listed one that shows zombie evidence (state 90 on Linux, `<defunct>` on Darwin). |
| Gohup.Stop | gohup.go:122-142 | An unreadable pidfile gives its error and changes nothing. A kill of exactly the read pid is logged iff the pid was read and the process handle obtained. Success iff the removal also succeeds, and then exactly the pidfile is gone. On any error the files are unchanged, and the process table never changes. A FindProcess or Remove failure is returned as that call's own error. |
| Lifecycle.DefaultPidfilesDistinct | gohup.go:106-110 | Two pids get the same default pidfile only if they are equal. |
| Lifecycle.QueryStatusMatchesTable | gohup.go:156-184 | When the OS answers truthfully from the table, the status is Running iff the pid is in the table and not a zombie, and Stopped otherwise, with no error. On other platforms a zombie still counts as Running. |
| Lifecycle.StartPidfileReadsBack | gohup_test.go:102-122 | After a successful Start whose pidfile write completed, the returned pidfile reads back as the returned pid. |
| Lifecycle.StartThenQueryRunning | gohup_test.go:143-156 | Right after a successful Start whose pidfile write completed, truthful OS answers give (StatusRunning, nil) for the returned pidfile. |
| Lifecycle.StopThenQueryNotFound | gohup.go:136-154 | After a successful Stop on a path, QueryStatus on it gives (StatusNotFound, nil) whatever the OS answers. |
| Lifecycle.StartWithFailedWriteLosesChild | gohup.go:113-118 | If the pidfile write fails before writing anything, Start still reports success with a live child, but QueryStatus on its pidfile says NotFound and Stop fails without signalling. |
| Lifecycle.StartThenStop | gohup_test.go:124-141 | Start and then Stop on its pidfile, with the OS cooperating and the pidfile write complete, succeeds. It logs a kill of exactly the started pid, removes only the pidfile, and leaves the path reading as NotFound. |

## Left out

- Process creation itself (`exec.Command`, `SysProcAttr`, `cmd.Start`, `Process.Release`) is one oracle answer: a pid > 1 that fits in an int64, or an error. The child's arguments and environment are recorded, not interpreted.
- Gohup.Start: requires the new pid not to be in the process table already. The OS guarantees this, and the code relies on it without checking.
- `Kill` (`kill_darwin.go`, `kill_windows.go`) is one abstract event: the pid is appended to the kill log. Group kill versus single-process kill is not distinguished, and the kill's own result is ignored, as in the code.
- go-ps, go.procstat and the `ps` subprocess are oracle inputs, not modelled behaviour. The error from running `ps` is ignored, as in the code.
- Processes exiting or being reaped happen outside these operations. The table's zombie flag is OS state that the model only reads.
- `os.Getwd` and `os.TempDir` are oracle inputs. `filepath.Join` is modelled as inserting one `/` separator: path cleaning and the Windows separator are not modelled.
- Only whether `os.Create` of the log file succeeds is modelled: it creates or truncates the file. What the child writes there, and stream redirection, are left out.
- Paths are compared as plain strings. A relative path is not resolved against the working directory. `.`, `..`, repeated separators and symlinks do not make two spellings name one file. The empty path is not excluded, whereas `os.Create("")` and `ioutil.ReadFile("")` fail on a real file system. So Stop's "no other path changes" frame and the Lifecycle lemmas hold per path string, for callers sharing one working directory.
- Reading a pidfile fails only when the path is absent. Other read failures, such as permissions, are not modelled.
- Go's `int` is taken to be 64 bits, so `int(pid)` in `readPidFile` is the identity. A 32-bit build would truncate.
- Error texts are structured values (prefix, operation, path, cause) rather than rendered strings. strconv's quoting of the input is not modelled.
- Concurrent `Stop` and `QueryStatus` on one pidfile can race, because there is no locking. All operations here are sequential.
- The example programs and the test harness are callers, not part of the model.

=== FILE: decimal.dfy ===
/**
 * The pidfile codec: `fmt.Sprintf("%d", pid)` for writing and
 * `strconv.ParseInt(s, 10, 64)` for reading, both on 64-bit Go integers.
 */
module Decimal {
  import opened Wrappers
  import opened Errors

  const MaxUint64: int := 0xFFFF_FFFF_FFFF_FFFF
  const MaxInt64: int := 0x7FFF_FFFF_FFFF_FFFF
  const MinInt64: int := -0x8000_0000_0000_0000
  /** `1 << 63`, the bound ParseInt checks the unsigned magnitude against. */
  const Int64Cutoff: int := 0x8000_0000_0000_0000
  /** ParseUint's `maxUint64/10 + 1`: any accumulator at or above it overflows on the next digit. */
  const UintCutoff: int := MaxUint64 / 10 + 1

  type Int64 = i: int | MinInt64 <= i <= MaxInt64

  predicate IsDigit(c: char) {
    '0' <= c <= '9'
  }

  function DigitValue(c: char): nat
    requires IsDigit(c)
  {
    (c as int) - ('0' as int)
  }

  function DigitChar(d: nat): (c: char)
    requires d < 10
    ensures IsDigit(c) && DigitValue(c) == d
  {
    (d + '0' as int) as char
  }

  predicate AllDigits(s: string) {
    forall i :: 0 <= i < |s| ==> IsDigit(s[i])
  }

  /** The number a string of decimal digits denotes, most significant digit first. */
  function DigitsValue(s: string): nat
    requires AllDigits(s)
  {
    if s == [] then 0 else DigitsValue(s[..|s| - 1]) * 10 + DigitValue(s[|s| - 1])
  }

  /** A non-empty run of digits with no leading zero, except "0" itself. */
  predicate CanonicalDigits(d: string) {
    |d| > 0 && AllDigits(d) && (d[0] == '0' ==> |d| == 1)
  }

  /** The shape `%d` produces: canonical digits, optionally after a minus sign, never "-0". */
  predicate Canonical(s: string) {
    if |s| > 0 && s[0] == '-' then CanonicalDigits(s[1..]) && s[1..] != "0"
    else CanonicalDigits(s)
  }

  /** Proof hint for `Digits` and `FormatInt`: the single digit "0" has value 0. */
  lemma ZeroDigits(d: string)
    requires AllDigits(d)
    ensures d == "0" ==> DigitsValue(d) == 0
  {
  }

  /** The decimal digits of `n` (strconv's unsigned formatting in base 10). */
  function Digits(n: nat): (s: string)
    ensures CanonicalDigits(s) && DigitsValue(s) == n
    decreases n
  {
    if n < 10 then
      var s := [DigitChar(n)];
      assert s[..0] == [];
      s
    else
      var prefix := Digits(n / 10);
      var s := prefix + [DigitChar(n % 10)];
      assert s[..|s| - 1] == prefix;
      ZeroDigits(prefix);
      s
  }

  /** `fmt.Sprintf("%d", i)`. */
  function FormatInt(i: int): (s: string)
    ensures Canonical(s)
  {
    if i < 0 then
      var d := Digits(-i);
      ZeroDigits(d);
      assert ("-" + d)[1..] == d;
      "-" + d
    else Digits(i)
  }

  /** A Go `(value, error)` pair from strconv; `err` is the NumError cause. */
  datatype Parsed = Parsed(value: int, err: Option<NumErrorKind>)

  /**
   * The loop of `strconv.ParseUint(s, 10, 64)` from index `i` with accumulator `n`.
   * A non-digit is a syntax error; an accumulator at or above the cutoff, or a
   * step past `maxUint64` (Go detects the latter as a wrap-around), is a range
   * error reported with the value `maxUint64`. The first problem met ends the scan.
   */
  function Scan(s: string, i: nat, n: nat): Parsed
    requires i <= |s|
    decreases |s| - i
  {
    if i == |s| then Parsed(n, None)
    else if !IsDigit(s[i]) then Parsed(0, Some(ErrSyntax))
    else if n >= UintCutoff then Parsed(MaxUint64, Some(ErrRange))
    else if n * 10 + DigitValue(s[i]) > MaxUint64 then Parsed(MaxUint64, Some(ErrRange))
    else Scan(s, i + 1, n * 10 + DigitValue(s[i]))
  }

  /** `strconv.ParseUint(s, 10, 64)`: base 10 admits no underscores and no prefix. */
  function ParseUint(s: string): Parsed {
    if s == [] then Parsed(0, Some(ErrSyntax)) else Scan(s, 0, 0)
  }

  predicate Negative(s: string) {
    |s| > 0 && s[0] == '-'
  }

  /** `s` without the one leading sign ParseInt accepts. */
  function Unsigned(s: string): string {
    if |s| > 0 && (s[0] == '+' || s[0] == '-') then s[1..] else s
  }

  /** An optional sign followed by at least one decimal digit, and nothing else. */
  predicate WellFormed(s: string) {
    |Unsigned(s)| > 0 && AllDigits(Unsigned(s))
  }

  function SignedValue(s: string): int
    requires WellFormed(s)
  {
    var magnitude: int := DigitsValue(Unsigned(s));
    if Negative(s) then -magnitude else magnitude
  }

  /**
   * `strconv.ParseInt(s, 10, 64)`: strip one sign, parse the magnitude with
   * ParseUint, keep its syntax errors, and clamp out-of-range magnitudes with a
   * range error.
   */
  function ParseInt(s: string): Parsed {
    if s == [] then Parsed(0, Some(ErrSyntax))
    else
      var neg := Negative(s);
      var u := ParseUint(Unsigned(s));
      if u.err == Some(ErrSyntax) then Parsed(0, Some(ErrSyntax))
      else if !neg && u.value >= Int64Cutoff then Parsed(Int64Cutoff - 1, Some(ErrRange))
      else if neg && u.value > Int64Cutoff then Parsed(-Int64Cutoff, Some(ErrRange))
      else Parsed(if neg then -u.value else u.value, None)
  }

  /** A longer run of digits never denotes less than its prefix. */
  lemma {:induction false} PrefixValueBound(s: string, k: nat)
    requires AllDigits(s) && k <= |s|
    ensures DigitsValue(s[..k]) <= DigitsValue(s)
    decreases |s| - k
  {
    if k < |s| {
      var t := s[..|s| - 1];
      assert t[..k] == s[..k];
      PrefixValueBound(t, k);
    } else {
      assert s[..k] == s;
    }
  }

  /** The scan from `i` succeeds exactly when the whole input is digits denoting at most `maxUint64`. */
  lemma {:induction false} ScanSpec(s: string, i: nat, n: nat)
    requires i <= |s| && AllDigits(s[..i]) && n == DigitsValue(s[..i]) && n <= MaxUint64
    ensures Scan(s, i, n).err == None <==> AllDigits(s) && DigitsValue(s) <= MaxUint64
    ensures Scan(s, i, n).err == None ==> AllDigits(s) && Scan(s, i, n).value == DigitsValue(s)
    ensures Scan(s, i, n).err == Some(ErrRange) ==> Scan(s, i, n).value == MaxUint64
    decreases |s| - i
  {
    if i == |s| {
      assert s[..i] == s;
    } else if !IsDigit(s[i]) {
    } else {
      var m := n * 10 + DigitValue(s[i]);
      var next := s[..i + 1];
      assert next[..i] == s[..i];
      assert AllDigits(next);
      assert DigitsValue(next) == m;
      if n >= UintCutoff || m > MaxUint64 {
        if AllDigits(s) {
          PrefixValueBound(s, i + 1);
        }
      } else {
        ScanSpec(s, i + 1, m);
      }
    }
  }

  /** ParseUint succeeds exactly on non-empty digit strings whose value fits in 64 bits. */
  lemma ParseUintSpec(s: string)
    ensures ParseUint(s).err == None <==> |s| > 0 && AllDigits(s) && DigitsValue(s) <= MaxUint64
    ensures ParseUint(s).err == None ==> AllDigits(s) && ParseUint(s).value == DigitsValue(s)
    ensures ParseUint(s).err == Some(ErrRange) ==> ParseUint(s).value == MaxUint64
  {
    if s != [] {
      assert s[..0] == [];
      ScanSpec(s, 0, 0);
    }
  }

  /**
   * ParseInt is strict: it succeeds exactly on an optional sign followed by
   * decimal digits whose signed value fits in an int64, and then yields that value.
   */
  lemma ParseIntSpec(s: string)
    ensures ParseInt(s).err == None <==> WellFormed(s) && MinInt64 <= SignedValue(s) <= MaxInt64
    ensures ParseInt(s).err == None ==> WellFormed(s) && ParseInt(s).value == SignedValue(s)
    ensures ParseInt(s).err.Some? ==> ParseInt(s).value in {0, MaxInt64, MinInt64}
  {
    if s != [] {
      var u := ParseUint(Unsigned(s));
      ParseUintSpec(Unsigned(s));
      if u.err.Some? {
        var kind := u.err.value;
        assert kind.ErrSyntax? || kind.ErrRange?;
      }
    }
  }

  /** Every int64 formatted with `%d` parses back to itself. */
  lemma FormatParseRoundTrip(i: Int64)
    ensures ParseInt(FormatInt(i)) == Parsed(i, None)
  {
    var s := FormatInt(i);
    ParseIntSpec(s);
  }

  lemma {:induction false} CanonicalDigitsRoundTrip(d: string)
    requires CanonicalDigits(d)
    ensures Digits(DigitsValue(d)) == d
    decreases |d|
  {
    var v := DigitsValue(d);
    var t := d[..|d| - 1];
    if |d| == 1 {
      assert t == [];
      assert DigitChar(DigitValue(d[0])) == d[0];
    } else {
      assert t[0] == d[0];
      assert CanonicalDigits(t);
      PrefixValueBound(t, 1);
      assert t[..1][..0] == [];
      assert DigitsValue(t[..1]) == DigitValue(d[0]) >= 1;
      assert v >= 10;
      CanonicalDigitsRoundTrip(t);
      assert DigitChar(DigitValue(d[|d| - 1])) == d[|d| - 1];
      assert d == t + [d[|d| - 1]];
    }
  }

  /** `%d` is the only canonical spelling: a canonical string that parses is what formatting its value gives. */
  lemma ParseFormatRoundTrip(s: string)
    requires Canonical(s) && ParseInt(s).err == None
    ensures FormatInt(ParseInt(s).value) == s
  {
    ParseIntSpec(s);
    if Negative(s) {
      CanonicalDigitsRoundTrip(s[1..]);
      assert s == "-" + s[1..];
    } else {
      CanonicalDigitsRoundTrip(s);
    }
  }
}

=== FILE: errors.dfy ===
/** The Go error values that the process supervisor produces or passes on. */
module Errors {

  /** The two causes strconv attaches to a NumError. */
  datatype NumErrorKind = ErrSyntax | ErrRange

  datatype Error =
      /** An error produced by the OS or an external library, kept uninterpreted. */
    | OsError(message: string)
      /** os.PathError: the operation, the path and the OS's reason. */
    | PathError(op: string, path: string, reason: string)
      /** strconv.NumError: the parsing function, the input and the cause. */
    | NumError(fn: string, num: string, kind: NumErrorKind)
      /** `fmt.Errorf(prefix + "%s", cause)`. */
    | Wrapped(prefix: string, cause: Error)
}

=== FILE: filepath.dfy ===
/** Path construction as used for the default pidfile location. */
module FilePath {

  const Separator: char := '/'

  /**
   * filepath.Join of a directory and a single file name: the two parts with one
   * separator between them (an empty directory leaves the name as it is).
   */
  function Join(dir: string, name: string): string {
    if dir == [] then name
    else if dir[|dir| - 1] == Separator then dir + name
    else dir + [Separator] + name
  }

  /** Joining onto the same directory never maps two names to one path. */
  lemma JoinInjective(dir: string, a: string, b: string)
    requires Join(dir, a) == Join(dir, b)
    ensures a == b
  {
    if dir != [] {
      var p := if dir[|dir| - 1] == Separator then dir else dir + [Separator];
      assert Join(dir, a) == p + a && Join(dir, b) == p + b;
      assert a == (p + a)[|p|..];
      assert b == (p + b)[|p|..];
    }
  }
}

=== FILE: gohup.dfy ===
/**
 * LocalProcess: starting a detached process and recording its pid in a
 * pidfile, querying its status through that file, and stopping it.
 * The OS is reduced to a file map, a process table, a log of kill events and
 * oracle parameters standing for each OS call's answer.
 */
module Gohup {
  import opened Wrappers
  import opened Errors
  import opened Decimal
  import opened Strings
  import opened FilePath
  import opened PidFile

  /**
   * The status of a tracked process. In Go each is a string constant whose
   * value is its own name ("StatusRunning", ...).
   */
  datatype Status = StatusRunning | StatusStopped | StatusError | StatusNotFound

  /** `runtime.GOOS` as far as QueryStatus distinguishes it. */
  datatype Platform = Linux | Darwin | OtherOS

  /** What to start; empty strings stand for the Go zero value of an unset field. */
  datatype Options = Options(
    path: string,
    args: seq<string>,
    env: seq<string>,
    dir: string,
    pidfile: string,
    logfile: string)

  /**
   * An entry of the OS process table: the command it runs, and whether it has
   * exited without being reaped (a zombie).
   */
  datatype Proc = Proc(
    path: string,
    args: seq<string>,
    env: seq<string>,
    dir: string,
    logfile: string,
    defunct: bool)

  /** The state the three operations act on; `kills` lists the pids whose process group was signalled, oldest first. */
  datatype System = System(files: FileMap, procs: map<int, Proc>, kills: seq<int>)

  /** A pid the OS hands out for a new process. */
  type OsPid = p: int | 1 < p <= MaxInt64 witness 2

  /**
   * The OS's answers during one Start: `os.Getwd`, `os.TempDir`, `os.Create` of
   * the log file, `cmd.Start` (yielding the new pid), `os.Create` of the pidfile
   * and the pidfile's `WriteString`.
   */
  datatype StartOracle = StartOracle(
    cwd: Result<string, Error>,
    tempDir: string,
    logCreate: Outcome<Error>,
    spawn: Result<OsPid, Error>,
    pidCreate: Outcome<Error>,
    pidWrite: WriteResult)

  /** Start's `(int, string, error)` result, with the state it leaves. */
  datatype StartResult = StartResult(sys: System, pid: int, pidfile: string, err: Option<Error>)

  /** The pidfile used when none is given: `<pid>.pid` in the temporary directory. */
  function DefaultPidfile(tempDir: string, pid: int): string {
    Join(tempDir, FormatInt(pid) + ".pid")
  }

  /** The pidfile Start writes for the new process. */
  function PidfilePath(options: Options, tempDir: string, pid: int): string {
    if options.pidfile != "" then options.pidfile else DefaultPidfile(tempDir, pid)
  }

  /** Start gets as far as a running child: a working directory, the log file if one is asked for, and a successful `cmd.Start`. */
  predicate Spawns(options: Options, o: StartOracle) {
    && (options.dir != "" || o.cwd.Success?)
    && (options.logfile == "" || o.logCreate.Pass?)
    && o.spawn.Success?
  }

  /** The OS never hands out a pid that is still in its process table. */
  predicate FreshPid(sys: System, o: StartOracle) {
    o.spawn.Success? ==> o.spawn.value !in sys.procs
  }

  /** The files once `os.Create` has created or truncated the log file, if one is named. */
  function WithLogFile(files: FileMap, logfile: string): FileMap {
    if logfile != "" then files[logfile := ""] else files
  }

  function StartFailed(sys: System, e: Error): StartResult {
    StartResult(sys, -1, "", Some(e))
  }

  /**
   * LocalProcess.Start: fill in the working directory, create the log file if
   * one is named, start the child, add it to the process table, choose the
   * pidfile and write the pid to it. Any failure returns `(-1, "", err)`; a
   * pidfile failure leaves the child running but untracked.
   */
  function Start(sys: System, options: Options, o: StartOracle): (r: StartResult)
    requires FreshPid(sys, o)
    ensures r.err == None <==> Spawns(options, o) && o.pidCreate.Pass?
    ensures r.err.Some? ==> r.pid == -1 && r.pidfile == ""
    ensures r.err == None ==>
      && r.pid > 1
      && r.pid == o.spawn.value
      && r.pidfile == PidfilePath(options, o.tempDir, r.pid)
      && r.pidfile in r.sys.files
      && r.sys.files[r.pidfile] <= FormatInt(r.pid)
    ensures r.err == None && o.pidWrite.WriteDone? ==> r.sys.files[r.pidfile] == FormatInt(r.pid)
    ensures options.dir == "" && o.cwd.Failure? ==> r.sys == sys && r.err == Some(o.cwd.error)
    ensures (options.dir != "" || o.cwd.Success?) && options.logfile != "" && o.logCreate.Fail? ==>
      r.err == Some(Wrapped("Unable to open log file: ", o.logCreate.error))
    ensures options.logfile != "" && o.logCreate.Fail? ==> r.sys == sys
    ensures Spawns(options, o) && o.pidCreate.Fail? ==>
      r.err == Some(Wrapped("unable to create pid file: ", o.pidCreate.error))
    ensures (options.dir != "" || o.cwd.Success?) && (options.logfile == "" || o.logCreate.Pass?) && o.spawn.Failure? ==>
      r.sys == sys.(files := WithLogFile(sys.files, options.logfile)) && r.err == Some(o.spawn.error)
    ensures !Spawns(options, o) ==> r.sys.procs == sys.procs
    ensures forall q :: q in sys.procs ==> q in r.sys.procs && r.sys.procs[q] == sys.procs[q]
    ensures Spawns(options, o) ==>
      var pid := o.spawn.value;
      && r.sys.procs.Keys == sys.procs.Keys + {pid}
      && r.sys.procs[pid].path == options.path
      && r.sys.procs[pid].args == options.args
      && r.sys.procs[pid].env == options.env
      && r.sys.procs[pid].dir == (if options.dir != "" then options.dir else o.cwd.value)
      && r.sys.procs[pid].logfile == options.logfile
      && !r.sys.procs[pid].defunct
    ensures Spawns(options, o) && options.logfile != "" ==> options.logfile in r.sys.files
    ensures r.sys.files.Keys <=
      sys.files.Keys + (if options.logfile != "" then {options.logfile} else {}) + (if r.err == None then {r.pidfile} else {})
    ensures forall q :: q in sys.files && q != options.logfile && (r.err.Some? || q != r.pidfile) ==>
      q in r.sys.files && r.sys.files[q] == sys.files[q]
    ensures r.sys.kills == sys.kills
  {
    var dir := if options.dir != "" then Success(options.dir) else o.cwd;
    if dir.Failure? then StartFailed(sys, dir.error)
    else if options.logfile != "" && o.logCreate.Fail? then
      StartFailed(sys, Wrapped("Unable to open log file: ", o.logCreate.error))
    else
      var files := WithLogFile(sys.files, options.logfile);
      if o.spawn.Failure? then StartFailed(sys.(files := files), o.spawn.error)
      else
        var pid := o.spawn.value;
        var child := Proc(options.path, options.args, options.env, dir.value, options.logfile, false);
        var procs := sys.procs[pid := child];
        var pidfile := PidfilePath(options, o.tempDir, pid);
        var w := WritePidFile(files, pid, pidfile, o.pidCreate, o.pidWrite);
        if w.err.Some? then StartFailed(System(files, procs, sys.kills), w.err.value)
        else StartResult(System(w.files, procs, sys.kills), pid, pidfile, None)
  }

  /** go-ps FindProcess: failed, found nothing (nil), or found the process. */
  datatype FindResult = FindFailed(error: Error) | NotListed | Listed

  /** go.procstat's Stat.Update: failed, or read the state byte. */
  datatype StatResult = StatFailed(error: Error) | StatRead(state: int)

  /** The OS's answers about the pid being queried: go-ps, procstat (Linux) and the text printed by `ps <pid>` (Darwin). */
  datatype Probe = Probe(find: FindResult, stat: StatResult, psOutput: string)

  /** procstat's state for a zombie, `'Z'`. */
  const ZombieState: int := 90

  /** What `ps` prints for a zombie. */
  const DefunctMarker: string := "<defunct>"

  /** QueryStatus's `(Status, error)` result, with the state it leaves. */
  datatype QueryResult = QueryResult(sys: System, status: Status, err: Option<Error>)

  /** The OS reports the listed process as a zombie. */
  predicate ZombieEvidence(platform: Platform, probe: Probe) {
    || (platform == Linux && probe.stat == StatRead(ZombieState))
    || (platform == Darwin && Contains(probe.psOutput, DefunctMarker))
  }

  /**
   * LocalProcess.QueryStatus: an unreadable or unparsable pidfile is NotFound
   * with no error; a failed lookup is StatusError; an unlisted pid is Stopped;
   * a listed zombie is Stopped (state 90 on Linux, `<defunct>` in `ps` output
   * on Darwin, where the output's own error is ignored); a failed state read on
   * Linux is StatusError; anything else is Running.
   */
  function QueryStatus(sys: System, pidfile: string, platform: Platform, probe: Probe): (r: QueryResult)
    ensures r.sys == sys
    ensures r.status == StatusNotFound <==> ReadPidFile(sys.files, pidfile).err.Some?
    ensures r.status == StatusNotFound ==> r.err == None
    ensures r.err.Some? <==> r.status == StatusError
    ensures r.status == StatusError <==>
      && ReadPidFile(sys.files, pidfile).err == None
      && (probe.find.FindFailed? || (probe.find.Listed? && platform == Linux && probe.stat.StatFailed?))
    ensures r.status == StatusError ==>
      r.err == Some(if probe.find.FindFailed? then probe.find.error else probe.stat.error)
    ensures r.status == StatusStopped <==>
      && ReadPidFile(sys.files, pidfile).err == None
      && (probe.find.NotListed? || (probe.find.Listed? && ZombieEvidence(platform, probe)))
  {
    var rd := ReadPidFile(sys.files, pidfile);
    if rd.err.Some? then QueryResult(sys, StatusNotFound, None)
    else
      match probe.find
      case FindFailed(e) => QueryResult(sys, StatusError, Some(e))
      case NotListed => QueryResult(sys, StatusStopped, None)
      case Listed =>
        if platform == Linux then
          match probe.stat
          case StatFailed(e) => QueryResult(sys, StatusError, Some(e))
          case StatRead(state) =>
            if state == ZombieState then QueryResult(sys, StatusStopped, None)
            else QueryResult(sys, StatusRunning, None)
        else if platform == Darwin && Contains(probe.psOutput, DefunctMarker) then
          QueryResult(sys, StatusStopped, None)
        else QueryResult(sys, StatusRunning, None)
  }

  /** The OS's answers during one Stop: `os.FindProcess` and `os.Remove` of the pidfile. */
  datatype StopOracle = StopOracle(find: Outcome<Error>, remove: Outcome<Error>)

  /** Stop's `error` result, with the state it leaves. */
  datatype StopResult = StopResult(sys: System, err: Option<Error>)

  /**
   * LocalProcess.Stop: read the pid (failing with no effect if that fails),
   * get a handle on the process, signal its whole process group, then remove
   * the pidfile and report a removal failure.
   */
  function Stop(sys: System, pidfile: string, o: StopOracle): (r: StopResult)
    ensures r.sys.procs == sys.procs
    ensures r.err == None <==> ReadPidFile(sys.files, pidfile).err == None && o.find.Pass? && o.remove.Pass?
    ensures ReadPidFile(sys.files, pidfile).err.Some? ==>
      r.sys == sys && r.err == ReadPidFile(sys.files, pidfile).err
    ensures r.sys.kills == sys.kills + [ReadPidFile(sys.files, pidfile).pid] <==>
      ReadPidFile(sys.files, pidfile).err == None && o.find.Pass?
    ensures r.sys.kills == sys.kills || r.sys.kills == sys.kills + [ReadPidFile(sys.files, pidfile).pid]
    ensures r.err == None ==>
      && pidfile !in r.sys.files
      && r.sys.files.Keys == sys.files.Keys - {pidfile}
      && (forall q :: q in r.sys.files ==> r.sys.files[q] == sys.files[q])
    ensures r.err.Some? ==> r.sys.files == sys.files
    ensures ReadPidFile(sys.files, pidfile).err == None && o.find.Fail? ==> r.err == Some(o.find.error)
    ensures ReadPidFile(sys.files, pidfile).err == None && o.find.Pass? && o.remove.Fail? ==>
      r.err == Some(o.remove.error)
  {
    var rd := ReadPidFile(sys.files, pidfile);
    if rd.err.Some? then StopResult(sys, rd.err)
    else if o.find.Fail? then StopResult(sys, Some(o.find.error))
    else
      var signalled := sys.(kills := sys.kills + [rd.pid]);
      if o.remove.Fail? then StopResult(signalled, Some(o.remove.error))
      else StopResult(signalled.(files := sys.files - {pidfile}), None)
  }
}

=== FILE: lifecycle.dfy ===
/**
 * Properties of LocalProcess that relate several calls, or relate a call to
 * the OS state it is meant to report on.
 */
module Lifecycle {
  import opened Wrappers
  import opened Errors
  import opened Decimal
  import opened Strings
  import opened FilePath
  import opened PidFile
  import opened Gohup

  /** Distinct pids get distinct default pidfiles, so launches never share one. */
  lemma DefaultPidfilesDistinct(tempDir: string, p: Int64, q: Int64)
    requires DefaultPidfile(tempDir, p) == DefaultPidfile(tempDir, q)
    ensures p == q
  {
    var a := FormatInt(p);
    var b := FormatInt(q);
    JoinInjective(tempDir, a + ".pid", b + ".pid");
    assert |a| == |b|;
    assert a == (a + ".pid")[..|a|];
    assert b == (b + ".pid")[..|b|];
    FormatParseRoundTrip(p);
    FormatParseRoundTrip(q);
  }

  /** The OS answers a query about `pid` truthfully from the process table, without failing. */
  ghost predicate ProbeAgrees(platform: Platform, probe: Probe, procs: map<int, Proc>, pid: int) {
    && !probe.find.FindFailed?
    && (probe.find.NotListed? <==> pid !in procs)
    && (platform == Linux ==>
          probe.stat.StatRead? && (probe.stat.state == ZombieState <==> pid in procs && procs[pid].defunct))
    && (platform == Darwin ==>
          ((exists i :: OccursAt(probe.psOutput, DefunctMarker, i)) <==> pid in procs && procs[pid].defunct))
  }

  /**
   * With truthful OS answers, QueryStatus reports Running exactly for a live
   * process in the table and Stopped for an absent one or a zombie; on a
   * platform other than Linux and Darwin a zombie is still reported Running.
   */
  lemma QueryStatusMatchesTable(sys: System, pidfile: string, platform: Platform, probe: Probe)
    requires ReadPidFile(sys.files, pidfile).err == None
    requires ProbeAgrees(platform, probe, sys.procs, ReadPidFile(sys.files, pidfile).pid)
    ensures var pid := ReadPidFile(sys.files, pidfile).pid;
            var r := QueryStatus(sys, pidfile, platform, probe);
            && r.err == None
            && (r.status == StatusRunning <==> pid in sys.procs && (platform == OtherOS || !sys.procs[pid].defunct))
            && (r.status == StatusStopped <==> pid !in sys.procs || (platform != OtherOS && sys.procs[pid].defunct))
  {
    ContainsSpec(probe.psOutput, DefunctMarker);
  }

  /** After a successful Start the pidfile it returns reads back as the pid it returns. */
  lemma StartPidfileReadsBack(sys: System, options: Options, o: StartOracle)
    requires FreshPid(sys, o) && o.pidWrite.WriteDone?
    requires Start(sys, options, o).err == None
    ensures var r := Start(sys, options, o);
            ReadPidFile(r.sys.files, r.pidfile) == PidRead(r.pid, None)
  {
  }

  /** Right after a successful Start, truthful OS answers make QueryStatus report Running. */
  lemma StartThenQueryRunning(sys: System, options: Options, o: StartOracle, platform: Platform, probe: Probe)
    requires FreshPid(sys, o) && o.pidWrite.WriteDone?
    requires Start(sys, options, o).err == None
    requires ProbeAgrees(platform, probe, Start(sys, options, o).sys.procs, Start(sys, options, o).pid)
    ensures var r := Start(sys, options, o);
            QueryStatus(r.sys, r.pidfile, platform, probe) == QueryResult(r.sys, StatusRunning, None)
  {
    var r := Start(sys, options, o);
    StartPidfileReadsBack(sys, options, o);
    QueryStatusMatchesTable(r.sys, r.pidfile, platform, probe);
  }

  /** Once Stop succeeds on a path, QueryStatus on it reports NotFound with no error, whatever the OS says. */
  lemma StopThenQueryNotFound(sys: System, pidfile: string, o: StopOracle, platform: Platform, probe: Probe)
    requires Stop(sys, pidfile, o).err == None
    ensures var t := Stop(sys, pidfile, o);
            QueryStatus(t.sys, pidfile, platform, probe) == QueryResult(t.sys, StatusNotFound, None)
  {
  }

  /**
   * Start followed by Stop on the returned pidfile, with the OS cooperating:
   * Stop succeeds, signals exactly the started pid, removes exactly the
   * pidfile, and the path then queries as NotFound.
   */
  lemma StartThenStop(sys: System, options: Options, o: StartOracle, so: StopOracle, platform: Platform, probe: Probe)
    requires FreshPid(sys, o) && o.pidWrite.WriteDone?
    requires Start(sys, options, o).err == None
    requires so.find.Pass? && so.remove.Pass?
    ensures var r := Start(sys, options, o);
            var t := Stop(r.sys, r.pidfile, so);
            && t.err == None
            && t.sys.kills == sys.kills + [r.pid]
            && t.sys.files.Keys == r.sys.files.Keys - {r.pidfile}
            && t.sys.procs == r.sys.procs
            && QueryStatus(t.sys, r.pidfile, platform, probe).status == StatusNotFound
  {
  }

  /**
   * Start ignores a failed pidfile write: it still succeeds, but a pidfile left
   * empty makes the live child invisible. QueryStatus reports NotFound and Stop
   * fails without signalling anything.
   */
  lemma StartWithFailedWriteLosesChild(
    sys: System, options: Options, o: StartOracle, so: StopOracle, platform: Platform, probe: Probe)
    requires FreshPid(sys, o) && o.pidWrite.ShortWrite? && o.pidWrite.written == 0
    requires Spawns(options, o) && o.pidCreate.Pass?
    ensures var r := Start(sys, options, o);
            var t := Stop(r.sys, r.pidfile, so);
            && r.err == None
            && r.pid in r.sys.procs && !r.sys.procs[r.pid].defunct
            && QueryStatus(r.sys, r.pidfile, platform, probe).status == StatusNotFound
            && t.err.Some? && t.sys == r.sys
  {
  }
}

=== FILE: pidfile.dfy ===
/** Reading and writing the pidfile over an abstract file map. */
module PidFile {
  import opened Wrappers
  import opened Errors
  import opened Decimal

  /** The file system as seen by the supervisor: path to whole-file contents. */
  type FileMap = map<string, string>

  /** readPidFile's `(int, error)` result. */
  datatype PidRead = PidRead(pid: int, err: Option<Error>)

  /** writePidFile's effect on the files, with its `error` result. */
  datatype PidWrite = PidWrite(files: FileMap, err: Option<Error>)

  /**
   * What `f.WriteString` managed: all of the text, or only its first `written`
   * bytes before failing with `error`.
   */
  datatype WriteResult = WriteDone | ShortWrite(written: nat, error: Error)

  /** The contents a write of `text` leaves in a freshly truncated file. */
  function WrittenText(text: string, w: WriteResult): string {
    match w
    case WriteDone => text
    case ShortWrite(n, _) => if n < |text| then text[..n] else text
  }

  /**
   * writePidFile: `os.Create` the path (truncating it), then write the decimal
   * pid. The result of the write is ignored: once creation succeeds the call
   * reports success even if the file was left empty or holds only a prefix of
   * the pid.
   */
  function WritePidFile(files: FileMap, pid: int, path: string, create: Outcome<Error>, write: WriteResult): (r: PidWrite)
    ensures r.err == None <==> create.Pass?
    ensures r.err.Some? ==> r.files == files
    ensures create.Fail? ==> r.err == Some(Wrapped("unable to create pid file: ", create.error))
    ensures r.err == None ==> path in r.files && r.files.Keys == files.Keys + {path}
    ensures r.err == None ==> forall q :: q in files && q != path ==> r.files[q] == files[q]
    ensures r.err == None ==> r.files[path] <= FormatInt(pid)
    ensures r.err == None && write.WriteDone? ==>
      && r.files[path] == FormatInt(pid)
      && (MinInt64 <= pid <= MaxInt64 ==> ReadPidFile(r.files, path) == PidRead(pid, None))
    ensures r.err == None && write.ShortWrite? && write.written == 0 ==>
      r.files[path] == "" && ReadPidFile(r.files, path).err.Some?
  {
    if create.Fail? then PidWrite(files, Some(Wrapped("unable to create pid file: ", create.error)))
    else
      var text := FormatInt(pid);
      var files' := files[path := WrittenText(text, write)];
      ReadsFormattedPid(files', path, pid);
      PidWrite(files', None)
  }

  /**
   * readPidFile: read the whole file and parse it with ParseInt; on any failure
   * the pid is -1 and the error wraps the cause.
   */
  function ReadPidFile(files: FileMap, path: string): (r: PidRead)
    ensures r.err == None <==>
      path in files && WellFormed(files[path]) && MinInt64 <= SignedValue(files[path]) <= MaxInt64
    ensures r.err == None ==> path in files && WellFormed(files[path]) && r.pid == SignedValue(files[path])
    ensures r.err.Some? ==> r.pid == -1
    ensures path !in files ==> r.err == Some(Wrapped("error reading file: ", PathError("open", path, "no such file or directory")))
    ensures path in files && r.err.Some? ==>
      && ParseInt(files[path]).err.Some?
      && r.err == Some(Wrapped("unable to cast pid to integer: ", NumError("ParseInt", files[path], ParseInt(files[path]).err.value)))
  {
    if path !in files then
      PidRead(-1, Some(Wrapped("error reading file: ", PathError("open", path, "no such file or directory"))))
    else
      var content := files[path];
      ParseIntSpec(content);
      var p := ParseInt(content);
      if p.err.Some? then
        PidRead(-1, Some(Wrapped("unable to cast pid to integer: ", NumError("ParseInt", content, p.err.value))))
      else PidRead(p.value, None)
  }

  /** Whatever `%d` wrote for an int64 pid, readPidFile reads back as that pid. */
  lemma ReadsFormattedPid(files: FileMap, path: string, pid: int)
    requires path in files
    ensures files[path] == FormatInt(pid) && MinInt64 <= pid <= MaxInt64 ==>
      ReadPidFile(files, path) == PidRead(pid, None)
  {
  }

  /** A short write can leave a pidfile that reads back as a different pid: 12 cut to its first digit reads as 1. */
  lemma ShortWriteMisreads(files: FileMap, path: string, e: Error)
    ensures var w := WritePidFile(files, 12, path, Pass, ShortWrite(1, e));
            w.err == None && ReadPidFile(w.files, path) == PidRead(1, None)
  {
  }

  /** A pidfile whose contents end in a newline (as `echo` writes them) is rejected. */
  lemma TrailingNewlineUnreadable(files: FileMap, path: string, line: string)
    requires path in files && files[path] == line + "\n"
    ensures ReadPidFile(files, path).err.Some? && ReadPidFile(files, path).pid == -1
  {
  }
}

=== FILE: strings.dfy ===
/** Substring search as done by Go's strings.Contains. */
module Strings {

  /** `sub` appears in `s` starting at index `i`. */
  predicate OccursAt(s: string, sub: string, i: int) {
    0 <= i && i + |sub| <= |s| && s[i..i + |sub|] == sub
  }

  /** strings.Contains: does `sub` occur anywhere in `s`? (The empty string occurs everywhere.) */
  function Contains(s: string, sub: string): bool
    decreases |s|
  {
    if sub <= s then true
    else if s == [] then false
    else Contains(s[1..], sub)
  }

  /** An occurrence past the first position is an occurrence in the tail, one index earlier. */
  lemma OccursShift(s: string, sub: string, i: int)
    requires |s| > 0 && i >= 1
    ensures OccursAt(s, sub, i) <==> OccursAt(s[1..], sub, i - 1)
  {
  }

  /** Contains agrees with the positional definition of an occurrence, in both directions. */
  lemma {:induction false} ContainsSpec(s: string, sub: string)
    ensures Contains(s, sub) <==> exists i :: OccursAt(s, sub, i)
    decreases |s|
  {
    if sub <= s {
      assert s[0..|sub|] == sub;
      assert OccursAt(s, sub, 0);
    } else if s != [] {
      ContainsSpec(s[1..], sub);
      if i :| OccursAt(s, sub, i) {
        assert i != 0;
        OccursShift(s, sub, i);
        assert OccursAt(s[1..], sub, i - 1);
      }
      if j :| OccursAt(s[1..], sub, j) {
        OccursShift(s, sub, j + 1);
        assert OccursAt(s, sub, j + 1);
      }
    }
  }
}

=== FILE: wrappers.dfy ===
/** Failure-carrying values used to model Go's `(value, error)` returns. */
module Wrappers {

  /** A value that may be absent; `None` plays the role of Go's nil error. */
  datatype Option<+T> = None | Some(value: T)

  /** Either a value or an error, for calls that return `(T, error)`. */
  datatype Result<+T, +E> = Success(value: T) | Failure(error: E)

  /** The outcome of a call that returns only an `error`. */
  datatype Outcome<+E> = Pass | Fail(error: E)
}
